=== FILE: README.md ===
# LED matrix temperature / UV display — decision logic in Dafny

This project models the decision logic of `temp_display.py`, the program that
drives an always-on LED matrix showing the outside temperature, the day's
high and low, and the UV index read from a Davis WeatherLink station. The
model has no I/O. Each HTTP exchange is an input value, and the program's
effects (the high/low file write, timer arming, the screen drawn) are output
values.

It has four parts:

- **Acquisition** (`get_temp`). One call is a pure step
  `(state, exchange) -> (state', ok, message, fileWritten)`. The state holds
  `error_count`, `master_error_count`, `temp_now`, `UV` and the day's high/low
  record. The exchange comes from the legacy V1 feed (one document) or the V2
  feed (station list, then sensor list). V1 is used exactly when a V1 user
  name is configured. The step covers:
  - the warning-to-error escalation (a failure is reported once the
    consecutive count passes 5);
  - the permanent failures (bad V1 credentials, unknown V2 station);
  - staleness (V1 over 5 minutes, V2 over 16 minutes);
  - the V2 station search, the V2 sensor scan and the daily high/low tracker
    with its -999/999 sentinels.

  Every JSON key the program reads is an `Option` in the exchange. An absent
  key therefore raises `KeyError` at the same point as in the program, and any
  values stored before it stay stored.
- **Brightness** (`set_brightness`, `is_bright`). The light sensor's reading
  goes through the breakpoint table, with truncated linear interpolation.
  Without the sensor, the configured maximum is used while it is bright and
  the minimum otherwise.
- **Scheduling** (`main_loop`, `is_sun_above`, `Blink_pixel.blink`,
  `enable_UV`). This covers operating hours at minute resolution, the
  after-hours blink chain, and the choice between the error screen, the
  high/low screen and the UV screen. It also decides when the UV-reveal timer
  is armed.
- **Panel values** (`refresh_display`, `get_colour_UV`, `Config`). This covers
  the placeholder `---` for missing values, the UV colour bands and the three
  configuration clamps.

Temperatures and UV values are exact `real`s. Light values are `int`s.

The model follows the code, including where it behaves differently from what a reader might expect:

- The consecutive error count starts at 5, so the first failure after start-up
  is reported at once.
- The high/low display time is capped at 50 seconds.
- There is no UV on/off switch and no twilight brightness ramp.
- Sensor availability is decided once, at start-up.
- The station search runs over `range(len(results))`. That is the number of
  top-level keys of the station document, not the number of stations.
- In the V2 sensor scan only a `null` value is skipped. A missing key aborts
  the whole fetch with `KeyError`, so it does block the sensors after it
  (`SensorScan.MissingTempKeyAbortsScan`, `SensorScan.MissingUvKeyAbortsScan`).
- A typed sensor whose `data` list is empty ends the V2 sensor scan while a
  value is still missing. The `IndexError` from `data[0]` is caught as the end
  of the loop, so the sensors after it are never read
  (`SensorScan.EmptyDataEndsScan`).
- The V2 timestamp is the temperature sensor's whenever a temperature is
  found, even when a UV index was found on an earlier sensor.
- In V1, the count is reset as soon as the age check passes, before the values
  are read. A fresh document that lacks `temp_c` is therefore absorbed forever
  (`Acquisition.ReadV1`).

## Model

| member | source | states |
|---|---|---|
| Feeds.FahrenheitToCelsius | temp_display.py:324-327 | the conversion is inverted by c·9/5+32, and below-freezing Fahrenheit is exactly negative Celsius |
| Stations.ChooseStation | temp_display.py:404-415 | with one top-level key the first station's id is taken (chosen iff non-zero); otherwise the result is the search over the first `k` stations |
| Stations.Search | temp_display.py:409-415 | a chosen id is the non-zero id of the first station (below `k`) carrying the configured name; no match means all `k` stations are named otherwise or the first match has id 0; running past the list means every station before its end was named otherwise; a missing key is `stations` when there is no list, else `station_name` or `station_id` of a station every earlier one of which was named otherwise |
| Stations.FirstMatchIsChosen | temp_display.py:409-415 | conversely, the first station named as configured below `k` with a non-zero id is the one chosen |
| Stations.NoneMatchIsNoMatch | temp_display.py:409-415 | conversely, when stations `i .. k-1` all exist and are named otherwise, the search gives no match (so the station is reported as not found, never as a key error) |
| Stations.FirstMatchZeroIsNoMatch | temp_display.py:409-415 | conversely, when the first station named as configured sits below `k` with id 0, the search gives no match |
| SensorScan.KeysFor | temp_display.py:438-443 | only structure types 23 and 2 have keys to read |
| SensorScan.Trunc | temp_display.py:450 | `int()` of a timestamp truncates toward zero |
| SensorScan.Scan | temp_display.py:433-459 | a temperature or UV index once found is never replaced; a held timestamp goes with a held reading; the temperature's timestamp is kept |
| SensorScan.ScanFindsFirstReadings | temp_display.py:433-459 | on sensors carrying every key, the scan yields the first non-null temperature and UV index of a typed sensor, and the temperature sensor's timestamp, else the UV sensor's |
| SensorScan.EmptyDataEndsScan | temp_display.py:445-459 | a typed sensor with an empty `data` list, met while the temperature or the UV index is still missing, ends the scan with what was found so far, whatever the later sensors hold |
| SensorScan.MissingTempKeyAbortsScan | temp_display.py:445-450 | a typed sensor whose first sample lacks the temperature key, met while no temperature is known, aborts the scan with that key error whatever the later sensors hold |
| SensorScan.MissingUvKeyAbortsScan | temp_display.py:452-455 | with the temperature known and no UV index yet, a typed sensor whose first sample lacks the UV key aborts the scan with that key error |
| SensorScan.ScanFromNothing | temp_display.py:433-459 | from nothing found: temperature and UV each the first non-null value (possibly from different sensors), timestamp the temperature sensor's if any, else the first UV sensor's, else none |
| HighLow.DayStart | temp_display.py:497-501 | a record from another day becomes today's with high -999 and low 999; today's record is kept |
| HighLow.Track | temp_display.py:497-514 | after the day check, a temperature t gives high max(high, t) and low min(low, t); no temperature changes nothing; the file is written iff high or low changed |
| HighLow.TrackAll | temp_display.py:497-514 | feeding a day's readings leaves a record dated today with both values set |
| HighLow.TrackAllIsExtremum | temp_display.py:504-509 | within one day the high is the largest and the low the smallest of the starting value and all readings, and each is one of them |
| HighLow.NewDayForgetsOldRecord | temp_display.py:497-509 | a reading on a new day gives max(-999, t) and min(999, t) whatever the old record held |
| HighLow.ExampleDay | temp_display.py:497-509 | readings 5, -2, 10, 3 on one day end at high 10 and low -2 |
| Settings.Clamp | temp_display.py:185-197 | maximum brightness capped at 100, minimum raised to 0, high/low seconds capped at 50, values in range and all other fields unchanged |
| Settings.ClampFixesClamped | temp_display.py:185-197 | a configuration is unchanged by clamping iff it is in range; clamping is idempotent |
| Acquisition.Initial | temp_display.py:220-257 | start-up state: count 5, lifetime count 0, no readings; without the high/low file the record is dated yesterday with no values |
| Acquisition.Transient | temp_display.py:335-385 | a transient failure adds one to both counts and nothing else; it is reported (ok false, its own message) iff the new count exceeds 5; below that the message is "Warning", or the key error itself |
| Acquisition.StaleMeansOverSixteenMinutes | temp_display.py:462 | V2 data is stale iff its timestamp is more than 960 s old; no timestamp is never stale |
| Acquisition.ReadV1 | temp_display.py:299-346 | stale V1 data is counted and either reported as outdated with nothing stored or, below the threshold, stored with (ok, Success); stale data under the threshold also stores temp_c, the converted upstream high/low and the UV index; fresh complete data resets the count and stores temp_c, the converted upstream high/low and the UV index (`None` when not numeric); a fresh document lacking temp_c always ends at count 1 with ok true |
| Acquisition.StoreV2 | temp_display.py:462-516 | stale V2 data above the threshold is reported as outdated with nothing stored; otherwise the readings (converted to Celsius) are stored with (ok, Success), the count reset when fresh or raised by one when stale, and the stored record and the file write are exactly the daily tracker's result for the stored temperature |
| Acquisition.Acquire | temp_display.py:277-607 | transient failures: both counts +1 and nothing else changes, reported iff new count > 5; permanent failures: both +1 and always reported; fresh data: never reported, count restarts from 0; otherwise both counts rise together by 1 or 2; the count only falls on fresh data; the lifetime count never falls; apart from permanent failures ok iff new count ≤ 5 |
| AcquisitionLaws.TransientRun | temp_display.py:518-607 | after n transient failures both counts have grown by n, and call j was reported iff count + j + 1 > 5 |
| AcquisitionLaws.FiveAbsorbedSixthReported | temp_display.py:373-385 | from count 0, five transient failures return ok and the sixth does not |
| AcquisitionLaws.FirstFailureAfterStartupReported | temp_display.py:224 | because the count starts at 5, the first transient failure after start-up is reported |
| AcquisitionLaws.ShortOutageRecovers | temp_display.py:304-321 | up to five transient failures from count 0 are all absorbed, and the fresh complete document that follows resets the count to 0 |
| Solar.IsBright | temp_display.py:673-679 | `is_bright`: now lies later than `offset` minutes before sunrise and earlier than `offset` minutes after sunset; with a non-negative offset all of daytime is bright |
| Solar.IsSunAbove | temp_display.py:682-689 | `is_sun_above`: now lies more than `offset` minutes after sunrise and more than `offset` minutes before sunset; with a non-negative offset this only happens in daytime |
| Solar.SunAboveIsBright | temp_display.py:673-689 | with non-negative offsets, "sun above" (narrowed window) implies "bright" (widened window) |
| Brightness.TruncDiv | temp_display.py:714 | the quotient is truncated toward zero |
| Brightness.SensorBrightness | temp_display.py:704-714 | the breakpoint loop and interpolation equal the segment-by-segment reference table |
| Brightness.SegmentBounds | temp_display.py:704-714 | a light inside a segment gives a percentage between that segment's two breakpoint percentages |
| Brightness.BrightnessInRange | temp_display.py:704-714 | for light ≥ 0 the brightness lies in [20, 100] |
| Brightness.BrightnessMonotone | temp_display.py:704-714 | more light never gives a lower brightness |
| Brightness.BreakpointsExact | temp_display.py:704-714 | each breakpoint gives exactly its percentage; 125 gives 35 |
| Brightness.ChooseBrightness | temp_display.py:691-722 | with the sensor, the table; without, one of max/min, and max iff sunrise−offset < now < sunset+offset |
| Panel.ReachedMonotone | temp_display.py:635-647 | a larger UV index never falls in a lower band |
| Panel.UvColour | temp_display.py:635-647 | the colour is the palette entry of the number of thresholds 3, 6, 8, 11 reached |
| Panel.ReadingCell | temp_display.py:770-775 | the temperature or UV value is shown iff present, as itself |
| Panel.HighLowCellAsWritten | temp_display.py:779-793 | as written: the sentinel gives `---`, another value is shown, an unset value makes formatting raise |
| Panel.HighLowCell | temp_display.py:779-793 | a high/low is shown iff set and not the sentinel; it agrees with the program wherever the program does not raise |
| Panel.PanelOf | temp_display.py:768-804 | the temperature and the UV index are shown iff present, and as the state's values; the high (low) is shown iff set and not -999 (999), and as the state's value, so no sentinel is ever shown; the UV colour follows the bands, grey without a value |
| Scheduler.Startup | temp_display.py:220-257 | the display starts from the start-up acquisition state (count 5, lifetime count 0, no readings, the saved record or one dated yesterday), with the high/low flag off, not after hours and no blink timer |
| Scheduler.IsOpen | temp_display.py:956 | the operating-hours window: always open when running 24 hours a day, else open exactly during the first `closed_at - open_at` minutes from `open_at` |
| Scheduler.InvertedHoursAlwaysClosed | temp_display.py:956 | an opening time at or after the closing time leaves no open minute |
| Scheduler.Tick | temp_display.py:947-1001 | brightness first; fetch iff open or V2, and a fetching tick writes the high/low file exactly when its `get_temp` call does; after hours nothing is drawn and a blink chain starts iff none was armed or after_hours was false; when open, after_hours is cleared and the screen is the error, else high/low while the sun is low, else high/low with a UV timer of hi_lo seconds when show_temp, else UV |
| Scheduler.Blink | temp_display.py:732-760 | the pixel toggles; it is drawn (150 lit, 0 dark) and the timer re-armed iff after hours |
| Scheduler.BlinkChain | temp_display.py:732-760 | a chain of after-hours blinks alternates lit and dark, starting from the toggled state |
| Scheduler.RevealUv | temp_display.py:763-765 | the reveal switches the panel to UV from the same acquisition state |
| Scheduler.RevealMatchesUvOnlyTick | temp_display.py:763-765 | the reveal armed by a tick that shows the high/low first leaves exactly the display and screen that the same tick gives with `show_temp` off, i.e. the UV layout |
| Scheduler.NoErrorScreenBelowThreshold | temp_display.py:973-1001 | during opening hours, with room for two more failures under the threshold, only a permanent failure brings the error screen |
| Scheduler.ClosedTicksStartOneChain | temp_display.py:966-971 | two closed ticks in a row start at most one blink chain |
| Scheduler.RefreshCrashesOnUnsetHigh | temp_display.py:779-784 | a reachable start-up tick is accepted while the high is unset, so formatting it as written raises; the corrected cell shows `---` |

## Findings

| source | as written | input that shows it | evidently intended | confidence | as-written member | corrected member |
|---|---|---|---|---|---|---|
| temp_display.py:779-784 | `refresh_display` formats `temp_high` with `'%.1f'` unless it equals -999, but at start-up without `high-lows.data` it is `None` | V1 feed, no high/low file, first tick open, fresh document with `temp_c` but no `temp_day_high_f`: the count is reset, then `KeyError` leaves it at 1, so ok is true and `refresh_display` raises `TypeError` in `main_loop`. On the first tick, called directly from `run()`, this ends the program. On a later tick it ends the timer thread, so the display stops updating (Scheduler.RefreshCrashesOnUnsetHigh) | an unset high or low is shown as `---`, like the sentinel | medium; not executed | Panel.HighLowCellAsWritten | Panel.HighLowCell |

## Left out

- HTTP requests, `response.json()`, URLs and headers. Each exchange is an input value.
- The extra count added when the body of a non-200 V2 current-readings reply does not decode or lacks `message` (temp_display.py:521-524 with 545-560). The model counts such a reply once.
- The `high-lows.data` file: reading it at start-up is the optional `saved` record, and writing it is the `fileWritten` flag.
- `round(..., 1)` and floating-point rounding. Temperatures are exact reals, and the light interpolation is exact rational arithmetic truncated toward zero.
- Uncaught exceptions, excluded by `Acquisition.Crashes`:
  - an `IndexError` when the station search runs past the station list;
  - `int(None)` on a null sensor timestamp;
  - comparing a V2 reading with an unset high/low.
- Non-numeric strings that the program passes to `int()`/`float()` (`observation_age`, `temp_c`, the upstream high/low). These raise `ValueError`, which `get_temp` does not catch, and the exchange types exclude them. The one exception is a string V1 `uv_index` such as `"--"`, which the program catches and stores as no UV value; it is modelled as `Feeds.V1Uv.UvNotNumeric`.
- JSON `null` in a V1 numeric field, `uv_index` included. `int(None)` and `float(None)` raise `TypeError`, which no handler in `get_temp` catches, so the call aborts. The V1 exchange types cannot express `null`, so this crash path is left out alongside those excluded by `Acquisition.Crashes`.
- The local-time conversion of the V2 timestamp (`datetime.fromtimestamp`). Staleness is computed from epoch seconds.
- Timers and threads (`threading.Timer`, the busy loop, cancellation on exit). Each callback is one step, and arming a timer is an output.
- `get_sunrise_sunset` and the `ephem` library. Sunrise, sunset and now are inputs, shared by `is_bright` and `is_sun_above` within one tick (the program reads the clock separately for each).
- `get_colour` and `ryb2rgb.py`: floating-point colour conversion of temperatures.
- Rendering (text layout, fonts, `error_display` wrapping, `SwapOnVSync`).
- Command-line and matrix options, JSON configuration loading and `strptime` (only the clamps are modelled), the Adafruit IO telemetry, the keyboard test hook, and VEML7700 sensor access.
- `restart_shutdown.py`, a GPIO shutdown button unrelated to the display logic.
- Panel.PanelOf: draws the corrected `Panel.HighLowCell`, and so do `Scheduler.Tick` and `Scheduler.RevealUv`. The model therefore never reproduces the `TypeError` that `refresh_display` raises on an unset high or low (temp_display.py:783, 792). `Panel.HighLowCellAsWritten` and `Scheduler.RefreshCrashesOnUnsetHigh` record that behaviour.
- Scheduler.Tick: the telemetry upload, which runs on ticks whose minute is a multiple of ten, and the re-arming of the 60-second main timer, which happens on every tick, are not outputs.

=== FILE: acquisition.dfy ===
/**
 One call of `get_temp`: the state it reads and writes, the outcome of the HTTP
 exchange(s), and the pair `(ok, message)` it returns, plus whether the high/low
 file was written. Every failure adds one to both error counters; transient
 failures are only reported (ok = false) once the consecutive count exceeds 5,
 permanent ones (bad V1 credentials, unknown V2 station) always are.
 */
module Acquisition {
  import opened Wrappers
  import opened Feeds
  import opened Settings
  import opened Stations
  import opened SensorScan
  import opened HighLow

  const ErrorThreshold := 5
  /** The count the program starts with, so that the first failure is reported. */
  const InitialErrorCount := 5
  const V1MaxAgeSeconds := 5 * 60
  const V2MaxAgeMinutes: real := 16.0

  datatype State = State(
    errorCount: int,          // consecutive failures since the last fresh reading
    masterErrorCount: int,    // all failures since start-up
    tempNow: Option<real>,
    uv: Option<real>,
    highLow: Record)

  /** The failure classes that wait for the threshold. */
  datatype Failure =
    | ConnectionLost
    | HttpError(code: int, credentialsHint: bool)
    | BadJson
    | MissingKey(key: string)
    | Outdated

  datatype Message = Success | Warning | Failed(failure: Failure) | InvalidCredentials | StationNotFound

  datatype StepResult = StepResult(state: State, ok: bool, message: Message, fileWritten: bool)

  /** The calendar day of the year and the wall clock in seconds since the epoch. */
  datatype Clock = Clock(today: int, nowEpoch: real)

  /** The state right after start-up: from `high-lows.data` if present, else dated yesterday with no values. */
  function Initial(today: int, saved: Option<Record>): (s: State)
    ensures s.errorCount == InitialErrorCount && s.masterErrorCount == 0
    ensures s.tempNow.None? && s.uv.None?
    ensures saved.None? ==> s.highLow == Record(today - 1, None, None)
    ensures saved.Some? ==> s.highLow == saved.value
  {
    State(InitialErrorCount, 0, None, None,
          match saved
          case Some(r) => r
          case None => Record(today - 1, None, None))
  }

  function Count(s: State): State {
    s.(errorCount := s.errorCount + 1, masterErrorCount := s.masterErrorCount + 1)
  }

  /** A transient failure: counted, and reported only above the threshold; key errors always name the key. */
  function Transient(s: State, f: Failure): (r: StepResult)
    ensures r.state == Count(s) && !r.fileWritten
    ensures r.ok <==> s.errorCount + 1 <= ErrorThreshold
    ensures !r.ok ==> r.message == Failed(f)
    ensures r.ok ==> r.message == (if f.MissingKey? then Failed(f) else Warning)
  {
    var s1 := Count(s);
    StepResult(s1, s1.errorCount <= ErrorThreshold,
               if s1.errorCount > ErrorThreshold || f.MissingKey? then Failed(f) else Warning,
               false)
  }

  /** A permanent failure: counted, and reported whatever the count. */
  function Permanent(s: State, m: Message): StepResult {
    StepResult(Count(s), false, m, false)
  }

  /** V2 data is stale when its timestamp is more than 16 minutes old; no timestamp is never stale. */
  predicate IsStale(stamp: Option<int>, nowEpoch: real) {
    stamp.Some? && (nowEpoch - stamp.value as real) / 60.0 > V2MaxAgeMinutes
  }

  lemma StaleMeansOverSixteenMinutes(stamp: int, nowEpoch: real)
    ensures IsStale(Some(stamp), nowEpoch) <==> nowEpoch - stamp as real > 960.0
    ensures !IsStale(None, nowEpoch)
  {
  }

  // ---------------------------------------------------------------- V1

  /** Reading the V1 values after the age check; each key read may still raise `KeyError`. */
  function StoreV1(s: State, tempC: Option<real>, obs: Observation): StepResult {
    match tempC
    case None => Transient(s, MissingKey("temp_c"))
    case Some(t) =>
      var s1 := s.(tempNow := Some(t));
      match obs.highF
      case None => Transient(s1, MissingKey("temp_day_high_f"))
      case Some(h) =>
        var s2 := s1.(highLow := s1.highLow.(high := Some(FahrenheitToCelsius(h))));
        match obs.lowF
        case None => Transient(s2, MissingKey("temp_day_low_f"))
        case Some(l) =>
          var s3 := s2.(highLow := s2.highLow.(low := Some(FahrenheitToCelsius(l))));
          match obs.uv
          case UvKeyMissing => Transient(s3, MissingKey("uv_index"))
          case UvNotNumeric => StepResult(s3.(uv := None), true, Success, false)
          case UvNumber(u) => StepResult(s3.(uv := Some(u)), true, Success, false)
  }

  /** The UV index stored from a V1 observation: `None` when the value is a string `float()` rejects, such as `"--"`. */
  function V1UvValue(uv: V1Uv): Option<real> {
    if uv.UvNumber? then Some(uv.x) else None
  }

  /** A V1 document carrying every value the program reads after the age check. */
  predicate V1Complete(doc: V1Document) {
    && doc.tempC.Some?
    && doc.observation.Some?
    && doc.observation.value.highF.Some? && doc.observation.value.lowF.Some?
    && !doc.observation.value.uv.UvKeyMissing?
  }

  /**
   The age check comes first. Stale data (older than 5 minutes) is counted; above
   the threshold it is reported as outdated with nothing stored, below it the
   values are read as if fresh. Fresh data resets the consecutive count before
   any value is read, so a fresh document missing `temp_c` always ends at count 1
   with ok = true, however many such documents came before.
   */
  function ReadV1(s: State, doc: V1Document): (r: StepResult)
    ensures !r.fileWritten
    ensures doc.observation.Some? && doc.observation.value.age.Some? ==>
              var age := doc.observation.value.age.value;
              && (age > V1MaxAgeSeconds && s.errorCount + 1 > ErrorThreshold ==>
                    r == StepResult(Count(s), false, Failed(Outdated), false))
              && (age > V1MaxAgeSeconds && s.errorCount + 1 <= ErrorThreshold && V1Complete(doc) ==>
                    && r.ok && r.message == Success
                    && r.state.errorCount == s.errorCount + 1
                    && r.state.masterErrorCount == s.masterErrorCount + 1
                    && r.state.tempNow == doc.tempC
                    && r.state.uv == V1UvValue(doc.observation.value.uv)
                    && r.state.highLow.high == Some(FahrenheitToCelsius(doc.observation.value.highF.value))
                    && r.state.highLow.low == Some(FahrenheitToCelsius(doc.observation.value.lowF.value))
                    && r.state.highLow.day == s.highLow.day)
              && (age <= V1MaxAgeSeconds && V1Complete(doc) ==>
                    && r.ok && r.message == Success
                    && r.state.errorCount == 0 && r.state.masterErrorCount == s.masterErrorCount
                    && r.state.tempNow == doc.tempC
                    && r.state.highLow.high == Some(FahrenheitToCelsius(doc.observation.value.highF.value))
                    && r.state.highLow.low == Some(FahrenheitToCelsius(doc.observation.value.lowF.value))
                    && r.state.uv == V1UvValue(doc.observation.value.uv)
                    && r.state.highLow.day == s.highLow.day)
              && (age <= V1MaxAgeSeconds && doc.tempC.None? ==>
                    && r.ok && r.state.errorCount == 1
                    && r.state.masterErrorCount == s.masterErrorCount + 1
                    && r.message == Failed(MissingKey("temp_c")))
  {
    match doc.observation
    case None => Transient(s, MissingKey("davis_current_observation"))
    case Some(obs) =>
      match obs.age
      case None => Transient(s, MissingKey("observation_age"))
      case Some(age) =>
        if age > V1MaxAgeSeconds then
          var s1 := Count(s);
          if s1.errorCount > ErrorThreshold then StepResult(s1, false, Failed(Outdated), false)
          else StoreV1(s1, doc.tempC, obs)
        else
          StoreV1(s.(errorCount := 0), doc.tempC, obs)
  }

  function AcquireV1(s: State, x: V1Exchange): StepResult {
    match x
    case V1ConnectionFailed => Transient(s, ConnectionLost)
    case V1Status(code) => Transient(s, HttpError(code, false))
    case V1InvalidRequest => Permanent(s, InvalidCredentials)
    case V1Undecodable => Transient(s, BadJson)
    case V1Body(doc) => ReadV1(s, doc)
  }

  // ---------------------------------------------------------------- V2

  /** Storing the V2 readings, converted to Celsius, and tracking the day's high and low. */
  function RecordV2(s: State, f: Found, today: int): StepResult
    requires f.temp.Some? ==> Comparable(s.highLow, today)
  {
    var t := if f.temp.Some? then Some(FahrenheitToCelsius(f.temp.value)) else None;
    var u := Track(s.highLow, today, t);
    StepResult(s.(tempNow := t, uv := f.uv, highLow := u.record), true, Success, u.written)
  }

  /** Stale data is counted, but below the threshold still stored as if fresh. */
  predicate ReachesTracker(s: State, f: Found, clock: Clock) {
    !IsStale(f.stamp, clock.nowEpoch) || s.errorCount + 1 <= ErrorThreshold
  }

  /**
   Stale data (timestamp over 16 minutes old) is counted; above the threshold it is
   reported as outdated with nothing stored, below it the readings are stored and
   (ok, "Success") returned as for fresh data, which resets the consecutive count.
   */
  function StoreV2(s: State, f: Found, clock: Clock): (r: StepResult)
    requires ReachesTracker(s, f, clock) && f.temp.Some? ==> Comparable(s.highLow, clock.today)
    ensures IsStale(f.stamp, clock.nowEpoch) && s.errorCount + 1 > ErrorThreshold ==>
              r == StepResult(Count(s), false, Failed(Outdated), false)
    ensures ReachesTracker(s, f, clock) ==>
              && r.ok && r.message == Success
              && r.state.errorCount == (if IsStale(f.stamp, clock.nowEpoch) then s.errorCount + 1 else 0)
              && r.state.masterErrorCount == s.masterErrorCount + (if IsStale(f.stamp, clock.nowEpoch) then 1 else 0)
              && r.state.uv == f.uv
              && (r.state.tempNow.Some? <==> f.temp.Some?)
              && (f.temp.Some? ==> r.state.tempNow.value == FahrenheitToCelsius(f.temp.value))
              && r.state.highLow == Track(s.highLow, clock.today, r.state.tempNow).record
              && r.fileWritten == Track(s.highLow, clock.today, r.state.tempNow).written
              && r.state.highLow.day == clock.today
  {
    if IsStale(f.stamp, clock.nowEpoch) then
      var s1 := Count(s);
      if s1.errorCount > ErrorThreshold then StepResult(s1, false, Failed(Outdated), false)
      else RecordV2(s1, f, clock.today)
    else
      RecordV2(s.(errorCount := 0), f, clock.today)
  }

  /** The paths on which the program raises an exception nobody catches. */
  predicate CurrentCrashes(s: State, cur: CurrentExchange, clock: Clock) {
    match cur
    case CurrentBody(Some(sensors)) =>
      (match Scan(sensors, Nothing)
       case ScanCrash => true
       case Scanned(f) => ReachesTracker(s, f, clock) && f.temp.Some? && !Comparable(s.highLow, clock.today)
       case ScanKeyError(_) => false)
    case _ => false
  }

  predicate V2Crashes(s: State, name: string, x: V2Exchange, clock: Clock) {
    match x
    case V2Body(k, stations, cur) =>
      (match ChooseStation(k, stations, name)
       case PastEnd => true
       case Chosen(_) => CurrentCrashes(s, cur, clock)
       case _ => false)
    case _ => false
  }

  function ReadCurrent(s: State, cur: CurrentExchange, clock: Clock): StepResult
    requires !CurrentCrashes(s, cur, clock)
  {
    match cur
    case CurrentConnectionFailed => Transient(s, ConnectionLost)
    case CurrentStatus(code) => Transient(s, HttpError(code, false))
    case CurrentUndecodable => Transient(s, BadJson)
    case CurrentBody(None) => Transient(s, MissingKey("sensors"))
    case CurrentBody(Some(sensors)) =>
      match Scan(sensors, Nothing)
      case ScanKeyError(k) => Transient(s, MissingKey(k))
      case Scanned(f) => StoreV2(s, f, clock)
  }

  function AcquireV2(s: State, name: string, x: V2Exchange, clock: Clock): StepResult
    requires !V2Crashes(s, name, x, clock)
  {
    match x
    case V2ConnectionFailed => Transient(s, ConnectionLost)
    case V2Status(code) => Transient(s, HttpError(code, code == 401))
    case V2Undecodable => Transient(s, BadJson)
    case V2Body(k, stations, cur) =>
      match ChooseStation(k, stations, name)
      case KeyAbsent(key) => Transient(s, MissingKey(key))
      case NoMatch => Permanent(s, StationNotFound)
      case Chosen(_) => ReadCurrent(s, cur, clock)
  }

  // ---------------------------------------------------------------- get_temp

  /** The exchange comes from the protocol the configuration selects. */
  predicate ProtocolMatches(c: Config, x: Exchange) {
    UsesV1(c) <==> x.V1?
  }

  predicate Crashes(s: State, c: Config, x: Exchange, clock: Clock) {
    x.V2? && V2Crashes(s, c.stationName, x.v2, clock)
  }

  /** The found V2 readings, when the station was chosen and the scan completed. */
  predicate V2Scanned(c: Config, x: V2Exchange) {
    && x.V2Body?
    && ChooseStation(x.topLevelKeys, x.stations, c.stationName).Chosen?
    && x.current.CurrentBody? && x.current.sensors.Some?
    && Scan(x.current.sensors.value, Nothing).Scanned?
  }

  /** Failures of the network, the HTTP status, the JSON body or a key read before any value is stored. */
  predicate IsTransient(c: Config, x: Exchange) {
    match x
    case V1(v1) =>
      || v1.V1ConnectionFailed? || v1.V1Status? || v1.V1Undecodable?
      || (v1.V1Body? && (v1.doc.observation.None? || v1.doc.observation.value.age.None?))
    case V2(v2) =>
      || v2.V2ConnectionFailed? || v2.V2Status? || v2.V2Undecodable?
      || (v2.V2Body? &&
          var choice := ChooseStation(v2.topLevelKeys, v2.stations, c.stationName);
          || choice.KeyAbsent?
          || (choice.Chosen? &&
              match v2.current
              case CurrentBody(Some(sensors)) => Scan(sensors, Nothing).ScanKeyError?
              case _ => true))
  }

  /** Failures the program treats as configuration errors. */
  predicate IsPermanent(c: Config, x: Exchange) {
    || x == V1(V1InvalidRequest)
    || (x.V2? && x.v2.V2Body? && ChooseStation(x.v2.topLevelKeys, x.v2.stations, c.stationName).NoMatch?)
  }

  /** A document whose age passed the freshness check: the only way the consecutive count is lowered. */
  predicate DeliversFreshData(c: Config, x: Exchange, clock: Clock) {
    match x
    case V1(v1) =>
      v1.V1Body? && v1.doc.observation.Some? && v1.doc.observation.value.age.Some? &&
      v1.doc.observation.value.age.value <= V1MaxAgeSeconds
    case V2(v2) =>
      V2Scanned(c, v2) && !IsStale(Scan(v2.current.sensors.value, Nothing).found.stamp, clock.nowEpoch)
  }

  function Acquire(s: State, c: Config, x: Exchange, clock: Clock): (r: StepResult)
    requires ProtocolMatches(c, x) && !Crashes(s, c, x, clock)
    // a transient failure adds one to both counts, changes nothing else, and is reported iff the new count exceeds 5
    ensures IsTransient(c, x) ==>
              && r.state == Count(s) && !r.fileWritten
              && (r.ok <==> s.errorCount + 1 <= ErrorThreshold)
              && (!r.ok ==> r.message.Failed?)
    // a permanent failure adds one to both counts and is reported whatever the count
    ensures IsPermanent(c, x) ==>
              && r.state == Count(s) && !r.ok && !r.fileWritten
              && r.message == (if x.V1? then InvalidCredentials else StationNotFound)
    // fresh data restarts the consecutive count from zero and is never reported
    ensures DeliversFreshData(c, x, clock) ==>
              && r.ok
              && r.state.errorCount == r.state.masterErrorCount - s.masterErrorCount
              && 0 <= r.state.errorCount <= 1
    // otherwise both counts rise together, by one or two
    ensures !DeliversFreshData(c, x, clock) ==>
              && r.state.errorCount - s.errorCount == r.state.masterErrorCount - s.masterErrorCount
              && s.masterErrorCount + 1 <= r.state.masterErrorCount <= s.masterErrorCount + 2
    ensures r.state.errorCount <= s.errorCount ==> DeliversFreshData(c, x, clock)
    // the lifetime count never falls
    ensures s.masterErrorCount <= r.state.masterErrorCount
    // apart from permanent failures, a call is reported exactly when the count it leaves exceeds 5
    ensures !IsPermanent(c, x) ==> (r.ok <==> r.state.errorCount <= ErrorThreshold)
    ensures r.fileWritten ==> x.V2? && r.ok
    ensures !r.ok ==> r.message != Success && r.message != Warning
  {
    match x
    case V1(v1) => AcquireV1(s, v1)
    case V2(v2) => AcquireV2(s, c.stationName, v2, clock)
  }
}

=== FILE: acquisitionlaws.dfy ===
/**
 What a run of consecutive `get_temp` calls that all fail transiently does to
 the error counters and to the result each call reports.
 */
module AcquisitionLaws {
  import opened Wrappers
  import opened Feeds
  import opened Settings
  import opened HighLow
  import opened Acquisition

  // ---------------------------------------------------------------- runs of calls

  predicate AllTransient(c: Config, xs: seq<Exchange>) {
    forall i :: 0 <= i < |xs| ==> ProtocolMatches(c, xs[i]) && IsTransient(c, xs[i])
  }

  /** Consecutive calls: the state they leave and the `ok` each returned. */
  function RunCalls(s: State, c: Config, xs: seq<Exchange>, clock: Clock): (r: (State, seq<bool>))
    requires AllTransient(c, xs)
    ensures |r.1| == |xs|
    decreases |xs|
  {
    if |xs| == 0 then (s, [])
    else
      assert ProtocolMatches(c, xs[0]) && IsTransient(c, xs[0]);
      var step := Acquire(s, c, xs[0], clock);
      var rest := RunCalls(step.state, c, xs[1..], clock);
      (rest.0, [step.ok] + rest.1)
  }

  /** After n transient failures both counters have grown by n, and call j was reported iff count + j + 1 > 5. */
  lemma {:induction false} TransientRun(s: State, c: Config, xs: seq<Exchange>, clock: Clock)
    requires AllTransient(c, xs)
    ensures var r := RunCalls(s, c, xs, clock);
            && r.0 == s.(errorCount := s.errorCount + |xs|, masterErrorCount := s.masterErrorCount + |xs|)
            && forall j :: 0 <= j < |xs| ==> (r.1[j] <==> s.errorCount + j + 1 <= ErrorThreshold)
    decreases |xs|
  {
    if |xs| > 0 {
      assert ProtocolMatches(c, xs[0]) && IsTransient(c, xs[0]);
      var step := Acquire(s, c, xs[0], clock);
      assert AllTransient(c, xs[1..]) by {
        forall i | 0 <= i < |xs[1..]| ensures ProtocolMatches(c, xs[1..][i]) && IsTransient(c, xs[1..][i]) {
          assert xs[1..][i] == xs[i + 1];
        }
      }
      TransientRun(step.state, c, xs[1..], clock);
    }
  }

  /** From a clean count, five transient failures are absorbed and the sixth is reported. */
  lemma FiveAbsorbedSixthReported(s: State, c: Config, xs: seq<Exchange>, clock: Clock)
    requires s.errorCount == 0
    requires |xs| == 6 && AllTransient(c, xs)
    ensures RunCalls(s, c, xs, clock).1 == [true, true, true, true, true, false]
    ensures RunCalls(s, c, xs, clock).0.errorCount == 6
  {
    TransientRun(s, c, xs, clock);
  }

  /** The count starts at 5, so the first transient failure after start-up is already reported. */
  lemma FirstFailureAfterStartupReported(today: int, saved: Option<Record>, c: Config, x: Exchange, clock: Clock)
    requires ProtocolMatches(c, x) && IsTransient(c, x)
    ensures !Crashes(Initial(today, saved), c, x, clock)
    ensures !Acquire(Initial(today, saved), c, x, clock).ok
  {
  }

  /**
   A short outage is invisible: from a clean count, up to five transient failures
   are all absorbed, and the fresh complete document that follows resets the count.
   */
  lemma ShortOutageRecovers(s: State, c: Config, xs: seq<Exchange>, x: Exchange, clock: Clock)
    requires s.errorCount == 0 && |xs| <= ErrorThreshold && AllTransient(c, xs)
    requires ProtocolMatches(c, x) && DeliversFreshData(c, x, clock) && (x.V1? ==> V1Complete(x.v1.doc))
    requires !Crashes(RunCalls(s, c, xs, clock).0, c, x, clock)
    ensures forall j :: 0 <= j < |xs| ==> RunCalls(s, c, xs, clock).1[j]
    ensures Acquire(RunCalls(s, c, xs, clock).0, c, x, clock).state.errorCount == 0
    ensures Acquire(RunCalls(s, c, xs, clock).0, c, x, clock).ok
  {
    TransientRun(s, c, xs, clock);
  }
}

=== FILE: brightness.dfy ===
/**
 `set_brightness`. With a light sensor, its reading is mapped through the breakpoint
 table light 2000, 500, 200, 50, 0 to percent 100, 60, 40, 30, 20: at or above
 2000 the result is 100, otherwise the linear interpolation between the two
 bracketing breakpoints, truncated toward zero as Python's `int()` does. Without
 a sensor the brightness is the configured maximum while it is bright and the
 configured minimum otherwise.
 */
module Brightness {
  import opened Settings
  import opened Solar

  const LightIn: seq<int> := [2000, 500, 200, 50, 0]
  const PercentOut: seq<int> := [100, 60, 40, 30, 20]

  /** Python's `int(n / d)`: the quotient truncated toward zero. */
  function TruncDiv(n: int, d: int): (q: int)
    requires d > 0
    ensures n >= 0 ==> q * d <= n < (q + 1) * d
    ensures n < 0 ==> (q - 1) * d < n <= q * d
  {
    if n >= 0 then n / d else -((-n) / d)
  }

  /** The interpolation between breakpoints (lo, pLo) and (hi, pHi), truncated. */
  function Lerp(light: int, lo: int, hi: int, pLo: int, pHi: int): int
    requires hi > lo
  {
    TruncDiv(pLo * (hi - lo) + (light - lo) * (pHi - pLo), hi - lo)
  }

  /** Reference definition of the table, one segment per line. */
  function BrightnessFor(light: int): int {
    if light >= 2000 then 100
    else if light >= 500 then Lerp(light, 500, 2000, 60, 100)
    else if light >= 200 then Lerp(light, 200, 500, 40, 60)
    else if light >= 50 then Lerp(light, 50, 200, 30, 40)
    else Lerp(light, 0, 50, 20, 30)
  }

  /**
   The program's loop: the first breakpoint the light reaches (the last one when it
   reaches none), then the interpolation from the breakpoint before it.
   */
  method SensorBrightness(light: int) returns (b: int)
    ensures b == BrightnessFor(light)
  {
    var i := 0;
    while i < |LightIn| - 1 && light < LightIn[i]
      invariant 0 <= i <= |LightIn| - 1
      invariant forall j :: 0 <= j < i ==> light < LightIn[j]
    {
      i := i + 1;
    }
    if i == 0 {
      b := PercentOut[0];
    } else {
      b := TruncDiv((light - LightIn[i]) * (PercentOut[i - 1] - PercentOut[i]) + PercentOut[i] * (LightIn[i - 1] - LightIn[i]),
                    LightIn[i - 1] - LightIn[i]);
      assert b == Lerp(light, LightIn[i], LightIn[i - 1], PercentOut[i], PercentOut[i - 1]);
    }
  }

  /** The segment of the table a light falls in, 0 for the top. */
  function Segment(light: int): nat {
    if light >= 2000 then 0 else if light >= 500 then 1 else if light >= 200 then 2 else if light >= 50 then 3 else 4
  }

  /**
   Within its segment a non-negative light gives at least the lower percentage of
   the segment and at most the upper one.
   */
  lemma SegmentBounds(light: int)
    requires light >= 0
    ensures PercentOut[Segment(light)] <= BrightnessFor(light)
    ensures Segment(light) > 0 ==> BrightnessFor(light) <= PercentOut[Segment(light) - 1]
  {
  }

  /** For a non-negative light the brightness lies in [20, 100]. */
  lemma BrightnessInRange(light: int)
    requires light >= 0
    ensures 20 <= BrightnessFor(light) <= 100
  {
    SegmentBounds(light);
  }

  /** More light never gives a dimmer display. */
  lemma BrightnessMonotone(a: int, b: int)
    requires 0 <= a <= b
    ensures BrightnessFor(a) <= BrightnessFor(b)
  {
    if Segment(a) != Segment(b) {
      SegmentBounds(a);
      SegmentBounds(b);
      assert PercentOut[Segment(a) - 1] <= PercentOut[Segment(b)];
    }
  }

  /** Each breakpoint gives exactly its percentage, and 125 (halfway between 50 and 200) gives 35. */
  lemma BreakpointsExact()
    ensures forall i :: 0 <= i < |LightIn| ==> BrightnessFor(LightIn[i]) == PercentOut[i]
    ensures BrightnessFor(125) == 35
  {
    assert BrightnessFor(500) == 60;
    assert BrightnessFor(200) == 40;
    assert BrightnessFor(50) == 30;
    assert BrightnessFor(0) == 20;
  }

  /**
   The brightness set on a tick. The sensor is used when it is configured and was
   found at start-up; its availability is never re-examined afterwards.
   */
  function ChooseBrightness(c: Config, sensorAvailable: bool, light: int, sun: SunTimes): (b: int)
    ensures c.useSensor && sensorAvailable ==> b == BrightnessFor(light)
    ensures !(c.useSensor && sensorAvailable) ==>
              && (b == c.maxBrightness || b == c.minBrightness)
              && (c.maxBrightness != c.minBrightness ==> (b == c.maxBrightness <==> IsBright(sun, c.daylightOffsetMinutes)))
  {
    if c.useSensor && sensorAvailable then BrightnessFor(light)
    else if IsBright(sun, c.daylightOffsetMinutes) then c.maxBrightness
    else c.minBrightness
  }
}

=== FILE: feeds.dfy ===
/**
 The two upstream WeatherLink exchanges, reduced to what `get_temp` reads from them.
 Every JSON key the program reads is an `Option`: `None` means the key is absent and
 the lookup raises `KeyError`. Non-200 statuses, bodies that do not decode and lost
 connections are outcomes of their own.
 */
module Feeds {
  import opened Wrappers

  /** A JSON scalar as a sensor reports it: a number or `null`. */
  datatype Json = JNull | JNumber(x: real)

  /** The first element of a sensor's `data` list: its keys and their values. */
  type Sample = map<string, Json>

  /** One element of the V2 `sensors` list. */
  datatype SensorRecord = SensorRecord(structureType: Option<int>, samples: Option<seq<Sample>>)

  /** One element of the V2 `stations` list. */
  datatype Station = Station(name: Option<string>, id: Option<int>)

  /** An HTTP status other than 200. */
  type BadStatus = c: int | c != 200 witness 500

  /** The V1 `uv_index` field: absent, a string that `float()` rejects (such as `"--"`), or a number. */
  datatype V1Uv = UvKeyMissing | UvNotNumeric | UvNumber(x: real)

  /** The V1 `davis_current_observation` object. */
  datatype Observation = Observation(age: Option<int>, highF: Option<real>, lowF: Option<real>, uv: V1Uv)

  /** A decoded V1 document: the observation object and the top-level `temp_c`. */
  datatype V1Document = V1Document(observation: Option<Observation>, tempC: Option<real>)

  /** The one V1 request. */
  datatype V1Exchange =
    | V1ConnectionFailed
    | V1Status(code: BadStatus)
    | V1InvalidRequest
    | V1Undecodable
    | V1Body(doc: V1Document)

  /** The second V2 request, for the current readings of the chosen station. */
  datatype CurrentExchange =
    | CurrentConnectionFailed
    | CurrentStatus(code: BadStatus)
    | CurrentUndecodable
    | CurrentBody(sensors: Option<seq<SensorRecord>>)

  /**
   The V2 exchange: the station list request, and the current-readings request
   that is only made once a station has been chosen. `topLevelKeys` is the number
   of keys of the decoded station document, which bounds the station search.
   */
  datatype V2Exchange =
    | V2ConnectionFailed
    | V2Status(code: BadStatus)
    | V2Undecodable
    | V2Body(topLevelKeys: nat, stations: Option<seq<Station>>, current: CurrentExchange)

  datatype Exchange = V1(v1: V1Exchange) | V2(v2: V2Exchange)

  /** Degrees Fahrenheit to Celsius, exactly (the program rounds to one decimal). */
  function FahrenheitToCelsius(f: real): (c: real)
    ensures c * 9.0 / 5.0 + 32.0 == f
    ensures f < 32.0 <==> c < 0.0
  {
    (f - 32.0) * 5.0 / 9.0
  }
}

=== FILE: highlow.dfy ===
/**
 The daily high/low record the program keeps itself for the V2 feed. On a new day
 the record is reset to the sentinels -999 (high) and 999 (low) before any
 comparison; a temperature then raises the high and lowers the low, and the
 record is written to `high-lows.data` only when one of them changed.
 */
module HighLow {
  import opened Wrappers

  const HighSentinel: real := -999.0
  const LowSentinel: real := 999.0

  /** `hi_low_date` (day of the year), `temp_high`, `temp_low`; `None` before any value is known. */
  datatype Record = Record(day: int, high: Option<real>, low: Option<real>)

  datatype Update = Update(record: Record, written: bool)

  function Max(a: real, b: real): real { if a >= b then a else b }
  function Min(a: real, b: real): real { if a <= b then a else b }

  /** The record after the day check: reset to the sentinels when the stored day is not today. */
  function DayStart(r: Record, today: int): (s: Record)
    ensures s.day == today
    ensures r.day == today ==> s == r
    ensures r.day != today ==> s.high == Some(HighSentinel) && s.low == Some(LowSentinel)
  {
    if r.day != today then Record(today, Some(HighSentinel), Some(LowSentinel)) else r
  }

  /** Comparing with an unset high or low raises `TypeError` in the program. */
  predicate Comparable(r: Record, today: int) {
    r.day == today ==> r.high.Some? && r.low.Some?
  }

  function Track(r: Record, today: int, t: Option<real>): (u: Update)
    requires t.Some? ==> Comparable(r, today)
    ensures u.record.day == today
    ensures t.None? ==> u == Update(DayStart(r, today), false)
    ensures t.Some? ==>
              var s := DayStart(r, today);
              && u.record.high == Some(Max(s.high.value, t.value))
              && u.record.low == Some(Min(s.low.value, t.value))
              && (u.written <==> u.record != s)
  {
    var s := DayStart(r, today);
    match t
    case None => Update(s, false)
    case Some(v) =>
      var hi := s.high.value;
      var lo := s.low.value;
      if v > hi || v < lo then
        Update(Record(today, Some(if v > hi then v else hi), Some(if v < lo then v else lo)), true)
      else
        Update(s, false)
  }

  /** A day's present readings fed one by one; an absent reading only starts the day (see `Track`). */
  function TrackAll(r: Record, today: int, ts: seq<real>): (u: Record)
    requires Comparable(r, today)
    ensures u.day == today && u.high.Some? && u.low.Some?
    decreases |ts|
  {
    if |ts| == 0 then DayStart(r, today)
    else
      TrackAll(Track(r, today, Some(ts[0])).record, today, ts[1..])
  }

  /**
   Within one day the high is the largest of the starting high and every reading,
   and the low the smallest of the starting low and every reading.
   */
  lemma {:induction false} TrackAllIsExtremum(r: Record, today: int, ts: seq<real>)
    requires Comparable(r, today)
    requires r.day == today
    ensures var u := TrackAll(r, today, ts);
            && u.high.value >= r.high.value && u.low.value <= r.low.value
            && (forall i :: 0 <= i < |ts| ==> u.low.value <= ts[i] <= u.high.value)
            && (u.high.value == r.high.value || exists i :: 0 <= i < |ts| && u.high.value == ts[i])
            && (u.low.value == r.low.value || exists i :: 0 <= i < |ts| && u.low.value == ts[i])
    decreases |ts|
  {
    if |ts| > 0 {
      var r1 := Track(r, today, Some(ts[0])).record;
      var rest := ts[1..];
      TrackAllIsExtremum(r1, today, rest);
      var u := TrackAll(r1, today, rest);
      assert u == TrackAll(r, today, ts);
      forall i | 0 <= i < |ts| ensures u.low.value <= ts[i] <= u.high.value {
        if i > 0 { assert ts[i] == rest[i - 1]; }
      }
      if u.high.value != r.high.value {
        if u.high.value == r1.high.value {
          assert u.high.value == ts[0];
        } else {
          var i :| 0 <= i < |rest| && u.high.value == rest[i];
          assert u.high.value == ts[i + 1];
        }
      }
      if u.low.value != r.low.value {
        if u.low.value == r1.low.value {
          assert u.low.value == ts[0];
        } else {
          var i :| 0 <= i < |rest| && u.low.value == rest[i];
          assert u.low.value == ts[i + 1];
        }
      }
    }
  }

  /** A reading on a new day forgets the old record: only the sentinels and the reading count. */
  lemma NewDayForgetsOldRecord(r: Record, today: int, t: real)
    requires r.day != today
    ensures Track(r, today, Some(t)).record == Record(today, Some(Max(HighSentinel, t)), Some(Min(LowSentinel, t)))
    ensures Track(r, today, Some(t)).written <==> (t > HighSentinel || t < LowSentinel)
  {
  }

  /** Readings 5, -2, 10, 3 on one day, after any earlier day, end at high 10 and low -2. */
  lemma ExampleDay(r: Record, today: int)
    requires r.day != today
    ensures TrackAll(r, today, [5.0, -2.0, 10.0, 3.0]).high == Some(10.0)
    ensures TrackAll(r, today, [5.0, -2.0, 10.0, 3.0]).low == Some(-2.0)
  {
    var ts := [5.0, -2.0, 10.0, 3.0];
    var r1 := Track(r, today, Some(5.0)).record;
    assert r1 == Record(today, Some(5.0), Some(5.0));
    assert ts[1..] == [-2.0, 10.0, 3.0];
    var r2 := Track(r1, today, Some(-2.0)).record;
    assert r2 == Record(today, Some(5.0), Some(-2.0));
    assert [-2.0, 10.0, 3.0][1..] == [10.0, 3.0];
    var r3 := Track(r2, today, Some(10.0)).record;
    assert r3 == Record(today, Some(10.0), Some(-2.0));
    assert [10.0, 3.0][1..] == [3.0];
    var r4 := Track(r3, today, Some(3.0)).record;
    assert r4 == r3;
    assert [3.0][1..] == [];
  }
}

=== FILE: panel.dfy ===
/**
 What `refresh_display` puts on the panel, apart from layout and fonts: each value
 is shown or replaced by the placeholder `---`, and the UV value is coloured by
 the Environment Canada UV index bands.
 */
module Panel {
  import opened Wrappers
  import opened HighLow
  import opened Acquisition

  datatype Rgb = Rgb(r: int, g: int, b: int)

  /** The colour of placeholders and of titles. */
  const Grey := Rgb(150, 150, 150)

  /** Band thresholds and their colours: low, moderate, high, very high, extreme. */
  const UvThresholds: seq<real> := [3.0, 6.0, 8.0, 11.0]
  const UvPalette: seq<Rgb> := [Rgb(79, 179, 0), Rgb(253, 205, 0), Rgb(255, 102, 0), Rgb(255, 0, 0), Rgb(206, 49, 254)]

  /** How many of `thresholds` the value has reached. */
  function Reached(thresholds: seq<real>, uv: real): (n: nat)
    ensures n <= |thresholds|
  {
    if |thresholds| == 0 then 0
    else (if uv >= thresholds[0] then 1 else 0) + Reached(thresholds[1..], uv)
  }

  /** A larger value never reaches fewer thresholds. */
  lemma {:induction false} ReachedMonotone(thresholds: seq<real>, a: real, b: real)
    requires a <= b
    ensures Reached(thresholds, a) <= Reached(thresholds, b)
    decreases |thresholds|
  {
    if |thresholds| > 0 {
      ReachedMonotone(thresholds[1..], a, b);
    }
  }

  /** The four thresholds unrolled: each one reached adds one band. */
  lemma ReachedUvThresholds(uv: real)
    ensures Reached(UvThresholds, uv) ==
              (if uv >= 3.0 then 1 else 0) + (if uv >= 6.0 then 1 else 0) +
              (if uv >= 8.0 then 1 else 0) + (if uv >= 11.0 then 1 else 0)
  {
    var t0: seq<real> := [11.0];
    var t1: seq<real> := [8.0, 11.0];
    var t2: seq<real> := [6.0, 8.0, 11.0];
    assert t0[1..] == [];
    assert Reached(t0, uv) == (if uv >= 11.0 then 1 else 0);
    assert t1[1..] == t0;
    assert Reached(t1, uv) == (if uv >= 8.0 then 1 else 0) + Reached(t0, uv);
    assert t2[1..] == t1;
    assert Reached(t2, uv) == (if uv >= 6.0 then 1 else 0) + Reached(t1, uv);
    assert UvThresholds[1..] == t2;
  }

  /** `get_colour_UV`: the colour of the band the UV index falls in. */
  function UvColour(uv: real): (c: Rgb)
    ensures c == UvPalette[Reached(UvThresholds, uv)]
  {
    ReachedUvThresholds(uv);
    if uv < 3.0 then Rgb(79, 179, 0)
    else if uv < 6.0 then Rgb(253, 205, 0)
    else if uv < 8.0 then Rgb(255, 102, 0)
    else if uv < 11.0 then Rgb(255, 0, 0)
    else Rgb(206, 49, 254)
  }

  /** A panel value, or the placeholder `---`. */
  datatype Cell = Placeholder | Shown(value: real)

  /** The current temperature and the UV index: shown unless absent. */
  function ReadingCell(v: Option<real>): (c: Cell)
    ensures c.Shown? <==> v.Some?
    ensures c.Shown? ==> c.value == v.value
  {
    match v
    case None => Placeholder
    case Some(x) => Shown(x)
  }

  /** The outcome of formatting a high or low as the program does: a cell, or an uncaught `TypeError`. */
  datatype Formatted = Formatted(cell: Cell) | FormatCrash

  /**
   The high or the low as the program formats it: the sentinel gives the
   placeholder, any other value is shown, and an unset value (`None`) is passed
   to `'%.1f' %`, which raises.
   */
  function HighLowCellAsWritten(v: Option<real>, sentinel: real): (f: Formatted)
    ensures f.FormatCrash? <==> v.None?
    ensures f.Formatted? ==> (f.cell.Placeholder? <==> v.value == sentinel)
  {
    match v
    case None => FormatCrash
    case Some(x) => if x == sentinel then Formatted(Placeholder) else Formatted(Shown(x))
  }

  /** The high or the low with an unset value treated like the sentinel. */
  function HighLowCell(v: Option<real>, sentinel: real): (c: Cell)
    ensures c.Shown? <==> v.Some? && v.value != sentinel
    ensures c.Shown? ==> c.value == v.value
    ensures v.Some? ==> HighLowCellAsWritten(v, sentinel) == Formatted(c)
  {
    match v
    case Some(x) => if x == sentinel then Placeholder else Shown(x)
    case None => Placeholder
  }

  datatype Panel = Panel(temp: Cell, high: Cell, low: Cell, uv: Cell, uvColour: Rgb)

  /** The panel drawn from the acquisition state; no sentinel is ever shown as a temperature. */
  function PanelOf(s: State): (p: Panel)
    ensures p.temp.Shown? <==> s.tempNow.Some?
    ensures p.temp.Shown? ==> p.temp.value == s.tempNow.value
    ensures p.high.Shown? <==> s.highLow.high.Some? && s.highLow.high.value != HighSentinel
    ensures p.high.Shown? ==> p.high.value != HighSentinel && s.highLow.high == Some(p.high.value)
    ensures p.low.Shown? <==> s.highLow.low.Some? && s.highLow.low.value != LowSentinel
    ensures p.low.Shown? ==> p.low.value != LowSentinel && s.highLow.low == Some(p.low.value)
    ensures p.uv.Shown? <==> s.uv.Some?
    ensures p.uv.Shown? ==> p.uv.value == s.uv.value
    ensures p.uvColour == (if s.uv.Some? then UvPalette[Reached(UvThresholds, s.uv.value)] else Grey)
  {
    Panel(ReadingCell(s.tempNow),
          HighLowCell(s.highLow.high, HighSentinel),
          HighLowCell(s.highLow.low, LowSentinel),
          ReadingCell(s.uv),
          if s.uv.Some? then UvColour(s.uv.value) else Grey)
  }
}

=== FILE: scheduler.dfy ===
/**
 One run of each timer callback as one step: the 60-second `main_loop` tick, the
 1-second after-hours blink, and the one-shot `enable_UV` reveal. Arming a timer
 is an output of the step that arms it.
 */
module Scheduler {
  import opened Wrappers
  import opened Feeds
  import opened Settings
  import opened Solar
  import opened Brightness
  import opened Acquisition
  import opened Panel

  /** The state shared by the callbacks. `blinkArmed` records that `timer_blink` was ever set. */
  datatype Display = Display(acq: State, showHiLo: bool, afterHours: bool, blinkArmed: bool)

  /** What the main loop puts on the panel: nothing, the error message, or the readings. */
  datatype Screen = Unchanged | ErrorScreen(message: Message) | Readings(hiLo: bool, panel: Panel)

  /** The inputs of one tick: the clock time (minute resolution), the sun, the light sensor and the fetch. */
  datatype TickInput = TickInput(minute: MinuteOfDay, sun: SunTimes, light: int, exchange: Exchange, clock: Clock)

  datatype TickResult = TickResult(
    display: Display,
    brightness: int,
    screen: Screen,
    uvTimer: Option<int>,     // seconds after which `enable_UV` is to run
    startBlink: bool,         // a new blink chain is started
    fetched: bool,
    fileWritten: bool)

  /** The display state at start-up. */
  function Startup(today: int, saved: Option<HighLow.Record>): (d: Display)
    ensures d.acq == Initial(today, saved)
    ensures d.acq.errorCount == InitialErrorCount && !d.afterHours && !d.blinkArmed && !d.showHiLo
  {
    Display(Initial(today, saved), false, false, false)
  }

  /** Operating hours: always when running 24 hours a day, else from `openAt` up to but excluding `closedAt`. */
  function IsOpen(c: Config, minute: MinuteOfDay): (b: bool)
    ensures c.hours24 ==> b
    // otherwise open exactly during the first `closedAt - openAt` minutes after opening
    ensures !c.hours24 ==> (b <==> 0 <= minute - c.openAt < c.closedAt - c.openAt)
  {
    c.hours24 || (c.openAt <= minute < c.closedAt)
  }

  /** An opening time at or after the closing time leaves no open minute at all. */
  lemma InvertedHoursAlwaysClosed(c: Config, minute: MinuteOfDay)
    requires !c.hours24 && c.openAt >= c.closedAt
    ensures !IsOpen(c, minute)
  {
  }

  /** The main loop fetches during operating hours, and after hours only for the V2 feed. */
  predicate TickFetches(c: Config, minute: MinuteOfDay) {
    IsOpen(c, minute) || !UsesV1(c)
  }

  function Tick(c: Config, sensorAvailable: bool, d: Display, input: TickInput): (r: TickResult)
    requires ProtocolMatches(c, input.exchange)
    requires TickFetches(c, input.minute) ==> !Crashes(d.acq, c, input.exchange, input.clock)
    // the brightness is chosen first, whatever else happens
    ensures r.brightness == ChooseBrightness(c, sensorAvailable, input.light, input.sun)
    ensures r.fetched <==> TickFetches(c, input.minute)
    ensures !r.fetched ==> r.display.acq == d.acq && !r.fileWritten
    ensures r.fetched ==> r.display.acq == Acquire(d.acq, c, input.exchange, input.clock).state
    ensures r.fetched ==> r.fileWritten == Acquire(d.acq, c, input.exchange, input.clock).fileWritten
    // after hours: nothing is drawn; a blink chain starts unless one is running
    ensures !IsOpen(c, input.minute) ==>
              && r.screen == Unchanged && r.uvTimer.None?
              && r.display.afterHours && r.display.blinkArmed
              && (r.startBlink <==> !d.blinkArmed || !d.afterHours)
              && r.display.showHiLo == d.showHiLo
    // opening hours: error first, then high/low while the sun is low, then high/low before UV, then UV
    ensures IsOpen(c, input.minute) ==>
              var a := Acquire(d.acq, c, input.exchange, input.clock);
              && !r.display.afterHours && !r.startBlink
              && r.display.blinkArmed == d.blinkArmed
              && (!a.ok ==> r.screen == ErrorScreen(a.message) && r.uvTimer.None? && r.display.showHiLo == d.showHiLo)
              && (a.ok ==> r.screen == Readings(r.display.showHiLo, PanelOf(a.state)))
              && (a.ok && !IsSunAbove(input.sun, c.sunOffsetMinutes) ==> r.display.showHiLo && r.uvTimer.None?)
              && (a.ok && IsSunAbove(input.sun, c.sunOffsetMinutes) ==>
                    && r.display.showHiLo == c.showTemp
                    && r.uvTimer == (if c.showTemp then Some(c.hiLoSeconds) else None))
  {
    var b := ChooseBrightness(c, sensorAvailable, input.light, input.sun);
    if !IsOpen(c, input.minute) then
      var start := !d.blinkArmed || !d.afterHours;
      if !UsesV1(c) then
        var a := Acquire(d.acq, c, input.exchange, input.clock);
        TickResult(Display(a.state, d.showHiLo, true, true), b, Unchanged, None, start, true, a.fileWritten)
      else
        TickResult(Display(d.acq, d.showHiLo, true, true), b, Unchanged, None, start, false, false)
    else
      var a := Acquire(d.acq, c, input.exchange, input.clock);
      var d1 := d.(acq := a.state, afterHours := false);
      if !a.ok then
        TickResult(d1, b, ErrorScreen(a.message), None, false, true, a.fileWritten)
      else if !IsSunAbove(input.sun, c.sunOffsetMinutes) then
        TickResult(d1.(showHiLo := true), b, Readings(true, PanelOf(a.state)), None, false, true, a.fileWritten)
      else if c.showTemp then
        TickResult(d1.(showHiLo := true), b, Readings(true, PanelOf(a.state)), Some(c.hiLoSeconds), false, true, a.fileWritten)
      else
        TickResult(d1.(showHiLo := false), b, Readings(false, PanelOf(a.state)), None, false, true, a.fileWritten)
  }

  /** One `Blink_pixel.blink`: the pixel toggles; it is drawn and the timer re-armed only while after hours. */
  datatype BlinkResult = BlinkResult(on: bool, pixelLevel: Option<int>, rearm: bool)

  function Blink(on: bool, afterHours: bool): (r: BlinkResult)
    ensures r.on == !on
    ensures r.rearm <==> afterHours
    ensures r.pixelLevel.Some? <==> afterHours
    ensures afterHours ==> r.pixelLevel.value == (if r.on then 150 else 0)
  {
    if afterHours then BlinkResult(!on, Some(if !on then 150 else 0), true)
    else BlinkResult(!on, None, false)
  }

  /** A chain of `n` blinks, all after hours, from pixel state `on`; the levels drawn, in order. */
  function BlinkChain(on: bool, n: nat): (levels: seq<int>)
    decreases n
    ensures |levels| == n
    ensures forall i :: 0 <= i < n ==> levels[i] == (if on == (i % 2 == 0) then 0 else 150)
  {
    if n == 0 then []
    else
      var r := Blink(on, true);
      [r.pixelLevel.value] + BlinkChain(r.on, n - 1)
  }

  /** `enable_UV`: the reveal timer switches the panel to the UV value; the acquisition state is untouched. */
  function RevealUv(d: Display): (r: (Display, Screen))
    ensures r.0 == d.(showHiLo := false)
    ensures r.1 == Readings(false, PanelOf(d.acq))
    ensures r.1.panel.uv.Shown? <==> d.acq.uv.Some?
  {
    (d.(showHiLo := false), Readings(false, PanelOf(d.acq)))
  }

  /**
   The reveal timer is armed only by an open tick that shows the high/low first
   (`show_temp`, sun above, readings accepted). When it fires, it leaves the
   display and draws the screen that the same tick would have given with
   `show_temp` off, that is, the UV layout.
   */
  lemma RevealMatchesUvOnlyTick(c: Config, sensorAvailable: bool, d: Display, input: TickInput)
    requires ProtocolMatches(c, input.exchange) && !Crashes(d.acq, c, input.exchange, input.clock)
    requires IsOpen(c, input.minute) && c.showTemp && IsSunAbove(input.sun, c.sunOffsetMinutes)
    requires Acquire(d.acq, c, input.exchange, input.clock).ok
    ensures var r := Tick(c, sensorAvailable, d, input);
            var uvOnly := Tick(c.(showTemp := false), sensorAvailable, d, input);
            && r.uvTimer == Some(c.hiLoSeconds)
            && RevealUv(r.display).0 == uvOnly.display
            && RevealUv(r.display).1 == uvOnly.screen
  {
  }

  /**
   During opening hours the error screen needs either a permanent failure or a
   consecutive count that passes 5: while two more failures still fit under the
   threshold, any other exchange keeps the readings on the panel.
   */
  lemma NoErrorScreenBelowThreshold(c: Config, sensorAvailable: bool, d: Display, input: TickInput)
    requires ProtocolMatches(c, input.exchange) && !Crashes(d.acq, c, input.exchange, input.clock)
    requires IsOpen(c, input.minute)
    requires !IsPermanent(c, input.exchange)
    requires d.acq.errorCount + 2 <= ErrorThreshold
    ensures Tick(c, sensorAvailable, d, input).screen.Readings?
  {
  }

  /** Two closed ticks in a row start one blink chain at most: the second finds it running. */
  lemma ClosedTicksStartOneChain(c: Config, sensorAvailable: bool, d: Display, in1: TickInput, in2: TickInput)
    requires !IsOpen(c, in1.minute) && !IsOpen(c, in2.minute)
    requires ProtocolMatches(c, in1.exchange) && ProtocolMatches(c, in2.exchange)
    requires TickFetches(c, in1.minute) ==> !Crashes(d.acq, c, in1.exchange, in1.clock)
    requires TickFetches(c, in2.minute) ==>
               !Crashes(Tick(c, sensorAvailable, d, in1).display.acq, c, in2.exchange, in2.clock)
    ensures !Tick(c, sensorAvailable, Tick(c, sensorAvailable, d, in1).display, in2).startBlink
  {
  }

  /**
   The program as written crashes in `refresh_display`: at start-up without a
   high/low file, with the V1 feed, a fresh document that has `temp_c` but no
   `temp_day_high_f` is accepted (ok, count 1) while the high is still unset, and
   formatting the unset high raises. With an unset value shown as the
   placeholder, the same tick draws `---`.
   */
  lemma RefreshCrashesOnUnsetHigh(today: int, sun: SunTimes, minute: MinuteOfDay, c: Config)
    requires UsesV1(c) && c.hours24
    ensures var d := Startup(today, None);
            var doc := V1Document(Some(Observation(Some(60), None, Some(50.0), UvNumber(1.0))), Some(12.5));
            var input := TickInput(minute, sun, 0, V1(V1Body(doc)), Clock(today, 0.0));
            var r := Tick(c, false, d, input);
            && r.screen.Readings?
            && r.display.acq.highLow.high.None?
            && HighLowCellAsWritten(r.display.acq.highLow.high, HighLow.HighSentinel) == FormatCrash
            && r.screen.panel.high == Placeholder
            && r.screen.panel.temp == Shown(12.5)
  {
  }
}

=== FILE: sensorscan.dfy ===
/**
 The V2 sensor scan: the station's sensors are visited in order; only sensors of
 `data_structure_type` 23 (keys `temp`, `uv_index`, `ts`) or 2 (keys `temp_out`,
 `uv`, `ts`) are read. The temperature and the UV index are each the first non-null
 value met, possibly on different sensors; the timestamp is that of the sensor the
 temperature came from, else that of the sensor the UV index came from. An empty
 `data` list ends the scan (the `IndexError` that also ends it at the last sensor);
 a missing key aborts the whole fetch with `KeyError`.
 */
module SensorScan {
  import opened Wrappers
  import opened Feeds

  const StampKey := "ts"

  /** What the scan has found so far (temperature still in Fahrenheit). */
  datatype Found = Found(temp: Option<real>, uv: Option<real>, stamp: Option<int>)

  const Nothing := Found(None, None, None)

  datatype ScanResult =
    | ScanKeyError(key: string)
    /** `int(None)` on a null timestamp: an uncaught `TypeError`. */
    | ScanCrash
    | Scanned(found: Found)

  /** The outcome of reading one sensor: go on, stop (empty `data`), or fail. */
  datatype Step = Next(found: Found) | Halt(found: Found) | StepKeyError(key: string) | StepCrash

  /** The temperature and UV keys of a structure type the program understands. */
  function KeysFor(t: int): (keys: Option<(string, string)>)
    ensures keys.Some? <==> t == 23 || t == 2
  {
    if t == 23 then Some(("temp", "uv_index"))
    else if t == 2 then Some(("temp_out", "uv"))
    else None
  }

  /** Python's `int()` of a float: truncation toward zero. */
  function Trunc(x: real): (n: int)
    ensures x >= 0.0 ==> n as real <= x < n as real + 1.0
    ensures x < 0.0 ==> n as real - 1.0 < x <= n as real
  {
    if x >= 0.0 then x.Floor else -((-x).Floor)
  }

  /** `int(sample["ts"])`. */
  function ReadStamp(sample: Sample): Step {
    if StampKey !in sample then StepKeyError(StampKey)
    else match sample[StampKey]
      case JNull => StepCrash
      case JNumber(x) => Next(Found(None, None, Some(Trunc(x))))
  }

  /** The temperature branch: taken only while no temperature has been found. */
  function ReadTemp(sample: Sample, key: string, f: Found): Step {
    if f.temp.Some? then Next(f)
    else if key !in sample then StepKeyError(key)
    else match sample[key]
      case JNull => Next(f)
      case JNumber(v) =>
        match ReadStamp(sample)
        case Next(s) => Next(f.(temp := Some(v), stamp := s.stamp))
        case other => other
  }

  /** The UV branch: taken only while no UV index has been found; keeps an earlier stamp. */
  function ReadUv(sample: Sample, key: string, f: Found): Step {
    if f.uv.Some? then Next(f)
    else if key !in sample then StepKeyError(key)
    else match sample[key]
      case JNull => Next(f)
      case JNumber(v) =>
        if f.stamp.Some? then Next(f.(uv := Some(v)))
        else match ReadStamp(sample)
          case Next(s) => Next(f.(uv := Some(v), stamp := s.stamp))
          case other => other
  }

  /** One turn of the scan loop. */
  function ReadSensor(s: SensorRecord, f: Found): Step {
    match s.structureType
    case None => StepKeyError("data_structure_type")
    case Some(t) =>
      match KeysFor(t)
      case None => Next(f)
      case Some(keys) =>
        if f.temp.Some? && f.uv.Some? then Next(f)
        else match s.samples
          case None => StepKeyError("data")
          case Some(samples) =>
            if |samples| == 0 then Halt(f)
            else match ReadTemp(samples[0], keys.0, f)
              case Next(f1) => ReadUv(samples[0], keys.1, f1)
              case other => other
  }

  /** A stamp is held exactly when a temperature or a UV index is. */
  predicate Stamped(f: Found) {
    f.stamp.Some? <==> (f.temp.Some? || f.uv.Some?)
  }

  function Scan(sensors: seq<SensorRecord>, f: Found): (r: ScanResult)
    decreases |sensors|
    ensures r.Scanned? && f.temp.Some? ==> r.found.temp == f.temp
    ensures r.Scanned? && f.uv.Some? ==> r.found.uv == f.uv
    ensures r.Scanned? && Stamped(f) ==> Stamped(r.found)
    ensures r.Scanned? && f.temp.Some? && Stamped(f) ==> r.found.stamp == f.stamp
  {
    if |sensors| == 0 then Scanned(f)
    else match ReadSensor(sensors[0], f)
      case Next(f1) => Scan(sensors[1..], f1)
      case Halt(f1) => Scanned(f1)
      case StepKeyError(k) => ScanKeyError(k)
      case StepCrash => ScanCrash
  }

  /** The keys every typed sensor needs for the scan never to raise. */
  predicate SensorComplete(s: SensorRecord) {
    && s.structureType.Some?
    && (KeysFor(s.structureType.value).Some? ==>
          && s.samples.Some? && |s.samples.value| > 0
          && var sample := s.samples.value[0];
          && var keys := KeysFor(s.structureType.value).value;
          && keys.0 in sample && keys.1 in sample
          && StampKey in sample && sample[StampKey].JNumber?)
  }

  predicate AllComplete(sensors: seq<SensorRecord>) {
    forall i :: 0 <= i < |sensors| ==> SensorComplete(sensors[i])
  }

  /** Which of the two readings a reference search looks for. */
  datatype Quantity = Temperature | UvIndex

  function KeyOf(q: Quantity, keys: (string, string)): string {
    match q
    case Temperature => keys.0
    case UvIndex => keys.1
  }

  /**
   Reference definition: the first typed sensor whose `q` value is a number,
   with that value and the sensor's own timestamp.
   */
  function FirstReading(sensors: seq<SensorRecord>, q: Quantity): Option<(real, int)>
    requires AllComplete(sensors)
  {
    if |sensors| == 0 then None
    else
      var s := sensors[0];
      assert SensorComplete(s);
      match KeysFor(s.structureType.value)
      case None => FirstReading(sensors[1..], q)
      case Some(keys) =>
        var sample := s.samples.value[0];
        match sample[KeyOf(q, keys)]
        case JNumber(v) => Some((v, Trunc(sample[StampKey].x)))
        case JNull => FirstReading(sensors[1..], q)
  }

  function ValueOf(o: Option<(real, int)>): Option<real> {
    match o
    case Some(p) => Some(p.0)
    case None => None
  }

  /** What the scan should find when starting from `f`, stated through `FirstReading`. */
  function Expected(sensors: seq<SensorRecord>, f: Found): Found
    requires AllComplete(sensors)
  {
    var t := FirstReading(sensors, Temperature);
    var u := FirstReading(sensors, UvIndex);
    Found(
      if f.temp.Some? then f.temp else ValueOf(t),
      if f.uv.Some? then f.uv else ValueOf(u),
      if f.temp.None? && t.Some? then Some(t.value.1)
      else if f.stamp.Some? then f.stamp
      else if f.uv.None? && u.Some? then Some(u.value.1)
      else None)
  }

  /** On sensors that carry every key, the scan finds exactly the reference readings. */
  lemma {:induction false} ScanFindsFirstReadings(sensors: seq<SensorRecord>, f: Found)
    requires AllComplete(sensors)
    ensures Scan(sensors, f) == Scanned(Expected(sensors, f))
    decreases |sensors|
  {
    if |sensors| > 0 {
      var s := sensors[0];
      var rest := sensors[1..];
      assert SensorComplete(s);
      assert AllComplete(rest) by {
        forall i | 0 <= i < |rest| ensures SensorComplete(rest[i]) {
          assert rest[i] == sensors[i + 1];
        }
      }
      var step := ReadSensor(s, f);
      match KeysFor(s.structureType.value)
      case None =>
        ScanFindsFirstReadings(rest, f);
      case Some(keys) =>
        assert step.Next?;
        ScanFindsFirstReadings(rest, step.found);
    }
  }

  /**
   A typed sensor whose `data` list is empty ends the scan while a value is still
   missing: the `IndexError` is caught by the loop, so the sensors after it are
   never read, whatever they hold.
   */
  lemma EmptyDataEndsScan(s: SensorRecord, rest: seq<SensorRecord>, f: Found)
    requires s.structureType.Some? && KeysFor(s.structureType.value).Some?
    requires s.samples == Some([])
    requires f.temp.None? || f.uv.None?
    ensures Scan([s] + rest, f) == Scanned(f)
  {
    assert ([s] + rest)[0] == s;
  }

  /**
   A typed sensor whose first sample lacks the temperature key, met while no
   temperature has been found, aborts the whole scan with that `KeyError`; the
   sensors after it are never read.
   */
  lemma MissingTempKeyAbortsScan(s: SensorRecord, rest: seq<SensorRecord>, f: Found)
    requires s.structureType.Some? && KeysFor(s.structureType.value).Some?
    requires s.samples.Some? && |s.samples.value| > 0
    requires f.temp.None?
    requires KeysFor(s.structureType.value).value.0 !in s.samples.value[0]
    ensures Scan([s] + rest, f) == ScanKeyError(KeysFor(s.structureType.value).value.0)
  {
    assert ([s] + rest)[0] == s;
  }

  /** The same for the UV key, once the temperature is known and the UV index is not. */
  lemma MissingUvKeyAbortsScan(s: SensorRecord, rest: seq<SensorRecord>, f: Found)
    requires s.structureType.Some? && KeysFor(s.structureType.value).Some?
    requires s.samples.Some? && |s.samples.value| > 0
    requires f.temp.Some? && f.uv.None?
    requires KeysFor(s.structureType.value).value.1 !in s.samples.value[0]
    ensures Scan([s] + rest, f) == ScanKeyError(KeysFor(s.structureType.value).value.1)
  {
    assert ([s] + rest)[0] == s;
  }

  /** The scan of the V2 current document from nothing found. */
  lemma ScanFromNothing(sensors: seq<SensorRecord>)
    requires AllComplete(sensors)
    ensures var t := FirstReading(sensors, Temperature);
            var u := FirstReading(sensors, UvIndex);
            Scan(sensors, Nothing) == Scanned(Found(
              ValueOf(t), ValueOf(u),
              if t.Some? then Some(t.value.1) else if u.Some? then Some(u.value.1) else None))
  {
    ScanFindsFirstReadings(sensors, Nothing);
  }
}

=== FILE: settings.dfy ===
/**
 The configuration values the decision logic reads, and the three clamps applied
 when they are loaded: the maximum brightness is capped at 100, the minimum
 brightness raised to 0, and the high/low display time capped at 50 seconds
 (the main loop repeats every 60 seconds).
 */
module Settings {

  /** A time of day at minute resolution, as `strptime(..., '%H:%M')` yields. */
  type MinuteOfDay = m: int | 0 <= m < 1440

  const MaxBrightnessCap := 100
  const MinBrightnessFloor := 0
  const HiLoSecondsCap := 50

  datatype Config = Config(
    davisUser: string,              // V1 user name; the empty string selects V2
    stationName: string,            // V2 station to search for
    hours24: bool,                  // `24_hours_per_day`
    openAt: MinuteOfDay,
    closedAt: MinuteOfDay,
    useSensor: bool,
    daylightOffsetMinutes: int,     // widens the "bright" window around the sun
    maxBrightness: int,
    minBrightness: int,
    sunOffsetMinutes: int,          // narrows the "sun above" window for UV
    showTemp: bool,                 // `alternate_with_hi_lo_temp`
    hiLoSeconds: int)               // `hi_lo_temp_length_seconds`

  /** The V1 feed is used exactly when a V1 user name is configured. */
  predicate UsesV1(c: Config) {
    c.davisUser != ""
  }

  predicate Clamped(c: Config) {
    c.maxBrightness <= MaxBrightnessCap && c.minBrightness >= MinBrightnessFloor && c.hiLoSeconds <= HiLoSecondsCap
  }

  /** The clamps applied while loading the configuration. */
  function Clamp(c: Config): (r: Config)
    ensures Clamped(r)
    ensures c.maxBrightness <= MaxBrightnessCap ==> r.maxBrightness == c.maxBrightness
    ensures c.maxBrightness > MaxBrightnessCap ==> r.maxBrightness == MaxBrightnessCap
    ensures c.minBrightness >= MinBrightnessFloor ==> r.minBrightness == c.minBrightness
    ensures c.minBrightness < MinBrightnessFloor ==> r.minBrightness == MinBrightnessFloor
    ensures c.hiLoSeconds <= HiLoSecondsCap ==> r.hiLoSeconds == c.hiLoSeconds
    ensures c.hiLoSeconds > HiLoSecondsCap ==> r.hiLoSeconds == HiLoSecondsCap
    ensures r == c.(maxBrightness := r.maxBrightness, minBrightness := r.minBrightness, hiLoSeconds := r.hiLoSeconds)
  {
    c.(maxBrightness := if c.maxBrightness > MaxBrightnessCap then MaxBrightnessCap else c.maxBrightness,
       minBrightness := if c.minBrightness < MinBrightnessFloor then MinBrightnessFloor else c.minBrightness,
       hiLoSeconds := if c.hiLoSeconds > HiLoSecondsCap then HiLoSecondsCap else c.hiLoSeconds)
  }

  /** Clamping a configuration that is already within bounds changes nothing; in particular clamping twice is clamping once. */
  lemma ClampFixesClamped(c: Config)
    ensures Clamped(c) <==> Clamp(c) == c
    ensures Clamp(Clamp(c)) == Clamp(c)
  {
  }
}

=== FILE: solar.dfy ===
/**
 The two sun-window predicates. Sunrise, sunset and the current instant are inputs
 (the astronomy library computes them), measured like its dates in days, so an
 offset of n minutes is n / 1440 of a day.
 */
module Solar {

  const Minute: real := 1.0 / 1440.0

  /** Today's sunrise and sunset, and now. */
  datatype SunTimes = SunTimes(sunrise: real, sunset: real, now: real)

  /** `is_bright`: now lies strictly inside the day widened by `offsetMinutes` at both ends. */
  function IsBright(sun: SunTimes, offsetMinutes: int): (b: bool)
    // in minutes: now is later than `offsetMinutes` before sunrise and earlier than `offsetMinutes` after sunset
    ensures b <==> (sun.now - sun.sunrise) * 1440.0 > -offsetMinutes as real && (sun.sunset - sun.now) * 1440.0 > -offsetMinutes as real
    // with a non-negative offset, every instant strictly between sunrise and sunset is bright
    ensures offsetMinutes >= 0 && sun.sunrise < sun.now < sun.sunset ==> b
  {
    sun.sunrise - offsetMinutes as real * Minute < sun.now < sun.sunset + offsetMinutes as real * Minute
  }

  /** `is_sun_above`: now lies strictly inside the day narrowed by `offsetMinutes` at both ends. */
  function IsSunAbove(sun: SunTimes, offsetMinutes: int): (b: bool)
    // in minutes: now is more than `offsetMinutes` after sunrise and more than `offsetMinutes` before sunset
    ensures b <==> (sun.now - sun.sunrise) * 1440.0 > offsetMinutes as real && (sun.sunset - sun.now) * 1440.0 > offsetMinutes as real
    // with a non-negative offset, the sun is only above between sunrise and sunset
    ensures offsetMinutes >= 0 && b ==> sun.sunrise < sun.now < sun.sunset
  {
    sun.sunrise + offsetMinutes as real * Minute < sun.now < sun.sunset - offsetMinutes as real * Minute
  }

  /** With non-negative offsets, whenever the sun counts as above the horizon it is also bright. */
  lemma SunAboveIsBright(sun: SunTimes, daylightOffset: int, sunOffset: int)
    requires daylightOffset >= 0 && sunOffset >= 0
    requires IsSunAbove(sun, sunOffset)
    ensures IsBright(sun, daylightOffset)
  {
  }
}

=== FILE: stations.dfy ===
/**
 The V2 station choice: with a single top-level key the first station is taken
 whatever its name; otherwise stations `0 .. k-1` are searched for the configured
 name, where `k` is the number of top-level keys of the decoded document, not the
 number of stations. A chosen id that is falsy (0) counts as no station.
 */
module Stations {
  import opened Wrappers
  import opened Feeds

  datatype Choice =
    | Chosen(id: int)
    | NoMatch
    | KeyAbsent(key: string)
    /** `stations[i]` with `i` past the end: an uncaught `IndexError`. */
    | PastEnd

  /** `j` is the first station from `i` on whose name is `name`; all before it are named otherwise. */
  predicate FirstMatchAt(st: seq<Station>, name: string, i: nat, j: nat) {
    && i <= j < |st|
    && st[j].name == Some(name)
    && forall m :: i <= m < j ==> st[m].name.Some? && st[m].name != Some(name)
  }

  /** Stations `i .. k-1` all exist, carry a name, and none is `name`. */
  predicate NoneMatch(st: seq<Station>, name: string, i: nat, k: nat) {
    && k <= |st|
    && forall m :: i <= m < k ==> st[m].name.Some? && st[m].name != Some(name)
  }

  /** Python truthiness of the station id. */
  function Truthy(id: int): Choice {
    if id != 0 then Chosen(id) else NoMatch
  }

  function ChooseStation(k: nat, stations: Option<seq<Station>>, name: string): (r: Choice)
    ensures k != 1 ==> r == Search(k, stations, name, 0)
    ensures k == 1 && stations.Some? && |stations.value| > 0 && stations.value[0].id.Some? ==>
              && (r.Chosen? <==> stations.value[0].id.value != 0)
              && (r.Chosen? ==> r.id == stations.value[0].id.value)
    ensures r.Chosen? ==> r.id != 0
  {
    if k == 1 then
      match stations
      case None => KeyAbsent("stations")
      case Some(st) =>
        if |st| == 0 then PastEnd
        else match st[0].id
          case None => KeyAbsent("station_id")
          case Some(id) => Truthy(id)
    else
      Search(k, stations, name, 0)
  }

  /** The `for i in range(k)` loop, from index `i` on. */
  function Search(k: nat, stations: Option<seq<Station>>, name: string, i: nat): (r: Choice)
    requires i <= k
    decreases k - i
    ensures r.Chosen? ==>
              stations.Some? && r.id != 0 &&
              exists j: nat :: j < k && FirstMatchAt(stations.value, name, i, j) && stations.value[j].id == Some(r.id)
    ensures r.NoMatch? ==>
              || i == k
              || (stations.Some? && NoneMatch(stations.value, name, i, k))
              || (stations.Some? &&
                  exists j: nat :: j < k && FirstMatchAt(stations.value, name, i, j) && stations.value[j].id == Some(0))
    ensures r.PastEnd? ==> stations.Some? && |stations.value| < k && NoneMatch(stations.value, name, i, |stations.value|)
    ensures r.KeyAbsent? ==>
              && i < k
              && (stations.None? ==> r.key == "stations")
              && (stations.Some? ==>
                    exists j: nat :: j < k && j < |stations.value| && NoneMatch(stations.value, name, i, j) &&
                      ((stations.value[j].name.None? && r.key == "station_name") ||
                       (stations.value[j].name == Some(name) && stations.value[j].id.None? && r.key == "station_id")))
  {
    if i == k then NoMatch
    else
      match stations
      case None => KeyAbsent("stations")
      case Some(st) =>
        if i >= |st| then PastEnd
        else match st[i].name
          case None => KeyAbsent("station_name")
          case Some(n) =>
            if n == name then
              match st[i].id
              case None => KeyAbsent("station_id")
              case Some(id) => Truthy(id)
            else Search(k, stations, name, i + 1)
  }

  /**
   The converse of the search contract: when the first station named `name` sits
   below `k` and carries a non-zero id, that id is chosen.
   */
  lemma {:induction false} FirstMatchIsChosen(k: nat, st: seq<Station>, name: string, i: nat, j: nat)
    requires i <= j < k
    requires FirstMatchAt(st, name, i, j)
    requires st[j].id.Some? && st[j].id.value != 0
    ensures Search(k, Some(st), name, i) == Chosen(st[j].id.value)
    decreases j - i
  {
    if i < j {
      assert st[i].name.Some? && st[i].name != Some(name);
      FirstMatchIsChosen(k, st, name, i + 1, j);
    }
  }

  /** When stations `i .. k-1` all exist and are named otherwise, the search finds no station. */
  lemma {:induction false} NoneMatchIsNoMatch(k: nat, st: seq<Station>, name: string, i: nat)
    requires i <= k
    requires NoneMatch(st, name, i, k)
    ensures Search(k, Some(st), name, i) == NoMatch
    decreases k - i
  {
    if i < k {
      assert st[i].name.Some? && st[i].name != Some(name);
      NoneMatchIsNoMatch(k, st, name, i + 1);
    }
  }

  /** When the first station named `name` sits below `k` but has id 0, the search finds no station. */
  lemma {:induction false} FirstMatchZeroIsNoMatch(k: nat, st: seq<Station>, name: string, i: nat, j: nat)
    requires i <= j < k
    requires FirstMatchAt(st, name, i, j)
    requires st[j].id == Some(0)
    ensures Search(k, Some(st), name, i) == NoMatch
    decreases j - i
  {
    if i < j {
      assert st[i].name.Some? && st[i].name != Some(name);
      FirstMatchZeroIsNoMatch(k, st, name, i + 1, j);
    }
  }
}

=== FILE: wrappers.dfy ===
/** The optional value used wherever the program holds `None` or a value. */
module Wrappers {

  datatype Option<+T> = None | Some(value: T)
}
